=== FILE: README.md ===
# python.tufte: a Dafny model of the plotting core

python.tufte draws minimalist charts in Edward Tufte's style on top of
matplotlib. The bar, box and scatter charts (and the combined `LineBar`) derive
from a shared `Canvas`/`Plot` base. The base
computes padded axis ranges from the data with `fit_axis_range`. It applies limits
and spine bounds with `set_axis`. It runs a fixed formatting sequence in `get_canvas`,
and it resolves a column name or a literal iterable into data with `fit`. This
model covers that base and two chart types:

- **Box** summarises a sample. It computes the minimum, numpy's linear
  quartiles, the median, the maximum, the IQR and whiskers 1.5·IQR beyond the
  quartiles. It draws two whisker segments and a median point at x = 0 and sets
  the y view limits from the data range.
- **Bar** validates the `align` keyword, case-insensitively. It keeps the x major
  ticks inside the data range and replaces the first and last kept tick with the
  buffered extremes. It then draws a white grid line across that extent at every
  y tick. It assigns one x position per value, or per distinct label. It decides
  whether crowded tick labels need rotating.

Modules:

| file | module | contents |
|---|---|---|
| `outcomes.dfy` | `Outcomes` | `Option`, `Result` and the `Error` cases. Every case except `NameWithoutTable` is an exception the Python code raises; `NameWithoutTable` marks a path where the code returns a meaningless 0-d string array instead. |
| `stats.dfy` | `Stats` | `Min`, `Max`, insertion `Sort`, and numpy's default ("linear") `Percentile` and `Median`, with their order facts. |
| `canvas.dfy` | `Canvas` | `FitAxisRange`, the `Axes` state, `SetAxis`, the `GetCanvas` step sequence, `Fit` and the default `PlotTitle`. |
| `box.dfy` | `Box` | The summary statistics, the axis values, `SetTicks` and `Plot` for the box chart. |
| `bar.dfy` | `Bar` | The align buffers, tick filtering, `SetTicks`, `FitAxisValues` and `ShouldRotate` for the bar chart. |
| `box_example.dfy`, `bar_example.dfy` | `BoxExample`, `BarExample` | The repository's sample data (`[41, 23, 48, 84, 32, 38]`, labels A–F), worked through the model. |

Modelling conventions:

- Python floats are exact reals.
- A raised exception is an `Err` value. So is the name-without-table case of `fit`.
- Matplotlib state is an immutable `Axes` record. Draw calls are `Draw` values.
- The figure width, the current tick locations and the tick labels, which
  the source reads back from matplotlib, are parameters.

Behaviour of the code worth knowing:

- **Quartiles.** The box statistics use numpy's default linear interpolation,
  with rank p/100·(n−1) on the sorted sample. For the sample
  `[41, 23, 48, 84, 32, 38]` this gives quartiles 33.5 and 46.25
  (`BoxExample.SampleSummary`).
- **Constant samples.** `fit_axis_range` does not special-case a constant
  sample. The model returns four equal values and no error
  (`Canvas.FitAxisRangeConstant`).
- **Bar ticks.** The bar chart keeps the ticks with xmin ≤ t ≤ xmax, inclusive.
  It then *replaces* the first and last kept tick (`xlist[1:-1]`).

## Model

| member | source | states |
|---|---|---|
| Stats.Min | tufte/box.py:49 | np.min of a non-empty sample is an element of the sample and no element is smaller |
| Stats.Max | tufte/box.py:53 | np.max of a non-empty sample is an element of the sample and no element is larger |
| Stats.Sort | tufte/box.py:50-52 | the order statistics numpy interpolates between: an ascending permutation of the sample, same length and same multiset |
| Stats.SortIsTheSortedPermutation | tufte/box.py:50-52 | any ascending permutation of the sample is the sorted sample, so percentiles do not depend on how the sample is sorted |
| Stats.SortEnds | tufte/box.py:49-53 | the first order statistic is np.min and the last is np.max |
| Stats.Rank | tufte/box.py:50 | for p in [0, 100] the linear-interpolation rank lies within the index range 0..n−1 of the sorted sample |
| Stats.PercentileMonotone | tufte/box.py:50-52 | a higher percentile is never smaller, so the 25th ≤ 50th ≤ 75th |
| Stats.Percentile | tufte/box.py:50-52 | np.percentile with linear interpolation on the sorted sample; every percentile lies between np.min and np.max of the sample |
| Stats.Median | tufte/box.py:51 | np.median: the middle sorted value, or the mean of the two middle ones; it lies between np.min and np.max |
| Stats.MedianIsPercentile50 | tufte/box.py:51 | np.median (middle value, or mean of the two middle values) equals the 50th linear percentile |
| Stats.PercentileOfConstant | tufte/box.py:50-52 | every percentile of an all-equal sample is that value |
| Canvas.FitAxisRange | tufte/base.py:106-123 | fails exactly on an empty sample; otherwise returns the sample's true minimum and maximum, and bounds that extend the range by pad × span on each side |
| Canvas.FitAxisRangeOrdered | tufte/base.py:118-123 | for a non-negative pad, lower ≤ min ≤ max ≤ upper |
| Canvas.FitAxisRangeSymmetric | tufte/base.py:120-121 | the padding below the minimum equals the padding above the maximum |
| Canvas.FitAxisRangeTightIff | tufte/base.py:120-121 | a bound meets the data exactly when the pad is zero or the sample is constant (both directions) |
| Canvas.FitAxisRangeConstant | tufte/base.py:118-123 | a constant sample yields four equal values and no error |
| Canvas.SpanOf | tufte/base.py:95-96 | (min(p), max(p)) is an ordered interval holding exactly the two values of the pair |
| Canvas.SetAxis | tufte/base.py:94-100 | an axis's view limits and spine change only when both its lim and bounds are given; each becomes the ordered span of its pair; labels and title are untouched |
| Canvas.SetAxisOrderInsensitive | tufte/base.py:94-100 | swapping the two values in any of the four pairs does not change the resulting axes |
| Canvas.SetAxisIdempotent | tufte/base.py:94-100 | applying the same axis values twice is the same as applying them once |
| Canvas.GetCanvas | tufte/base.py:137-155 | steps run in the fixed order base spines, variant spines, axis values, set_axis, set_ticks, labels; set_ticks receives the axes set_axis left and the same values; all six steps complete exactly when get_axis_values and set_ticks both succeed, and then the axes are set_ticks' result with the labels set; a set_ticks failure stops after five steps with set_axis' effect kept; a get_axis_values failure stops after three with the axes untouched |
| Canvas.Fit | tufte/base.py:176-188 | with a table, the argument is a column name and the result is that column or a missing-column error; without a table, a literal sequence is used as is and a name fails |
| Canvas.FitWithTableIsLookup | tufte/base.py:182-188 | with a table present, success means a column lookup; a literal never falls through |
| Canvas.PlotTitle | tufte/bar.py:50-52 | the title is never empty: a truthy title is kept and None or "" becomes "<Kind> plot of <xlabel> and <ylabel>" |
| Canvas.PlotTitleIdempotent | tufte/box.py:62-64 | passing a chart's resulting title back in leaves it unchanged |
| Canvas.SetPlotTitle | tufte/base.py:190-192 | a chart's set_plot_title then the base's: only the axes title changes, to the given truthy title or "<Kind> plot of <xlabel> and <ylabel>" (Box and Bar pass their class names) |
| Box.SummaryStatistics | tufte/box.py:48-60 | fails exactly on an empty sample; the quartiles are the 25/50/75 linear percentiles; iqr is their difference and is non-negative; the whiskers lie 1.5·iqr beyond the quartiles; min ≤ q25 ≤ median ≤ q75 ≤ max and the whiskers enclose the quartiles |
| Box.SummaryOfConstant | tufte/box.py:56-58 | an all-equal sample has zero IQR and every statistic, whiskers included, at the common value |
| Box.GetAxisValues | tufte/box.py:66-83 | xlim is the padded range and xbounds the raw extremes of the sample; no y values are supplied |
| Box.SetTicks | tufte/box.py:85-89 | only the y view limits change; they enclose the xbounds span, widened by 5% of its length on each side; a missing xbounds is an error |
| Box.SetTicksOrderInsensitive | tufte/box.py:85-89 | the order of the xbounds pair does not matter |
| Box.Plot | tufte/box.py:19-43 | succeeds exactly for a non-empty literal sample; draws the lower whisker, the upper whisker and the median point at x = 0, in that order, with the whisker ends below and above the median; formatting completes |
| Box.PlotLimits | tufte/box.py:82-89 | after plotting, the bottom spine spans the sample extremes, the x view limits are the padded range, the y view limits equal the x view limits, and every draw sits at x = 0 |
| BoxExample.SampleSummary | tufte/box.py:48-60 | for [41, 23, 48, 84, 32, 38] the summary is min 23, quartiles 33.5/39.5/46.25, max 84, iqr 12.75, whiskers 14.375 and 65.375 |
| Bar.Lower | tufte/bar.py:61 | lower-casing keeps the length, leaves no upper-case letter, and changes a character only when it is an upper-case letter, into its lower-case partner |
| Bar.Buffers | tufte/bar.py:61-71 | "center" in any case gives buffers (0.5, 0.5); "edge" gives (0.25, width + 0.25); anything else is a ValueError naming the value; these are the only successes |
| Bar.BuffersCaseInsensitive | tufte/bar.py:61-67 | the buffers depend on align only up to letter case |
| Bar.Keep | tufte/bar.py:76-78 | a tick is kept exactly when it is a major tick within [xmin, xmax], inclusive |
| Bar.KeepAppend | tufte/bar.py:76-78 | filtering preserves the ticks' relative order: it distributes over concatenation |
| Bar.Inner | tufte/bar.py:79 | s[1:-1] drops exactly the first and last element and is empty for fewer than two |
| Bar.SetTicks | tufte/bar.py:54-82 | a bad align fails before an empty range does; the extent runs from xmin − lower buffer to xmax + upper buffer with the interior kept ticks in between; there is exactly one grid line per y tick, spanning that extent |
| Bar.Unique | tufte/bar.py:98-99 | each label appears exactly once and no other value appears |
| Bar.Levels | tufte/bar.py:98-102 | the number of positions is the number of values, or the number of distinct labels |
| Bar.RangeExtend | tufte/bar.py:102-103 | range(0) is empty and range(n + 1) is range(n) followed by n |
| Bar.FitAxisValues | tufte/bar.py:84-104 | fails exactly when either series is empty; otherwise each axis gets positions 0..k−1, where k counts its values or its distinct labels |
| Bar.RangeExtremes | tufte/bar.py:73-74 | over range(n) positions, xmin is 0 and xmax is n−1 |
| Bar.PlotGrid | tufte/bar.py:39-40 | fit_axis_values then set_ticks: an empty series fails first, then a bad align, and nothing else fails; on success each grid line runs from −lower buffer to (positions − 1) + upper buffer |
| Bar.GridCoversBars | tufte/bar.py:37-40 | for categorical x and align spelled "center" or "edge" (the only spellings the bar call accepts), every grid line spans every bar, for center bars of width ≤ 1 and edge bars of any width |
| Bar.MaxTextLength | tufte/bar.py:113-116 | the result is the length of some label's text and no label is longer |
| Bar.ShouldRotate | tufte/bar.py:106-119 | fails exactly when there are no tick labels; otherwise rotate exactly when the label width (longest label text × first label's font size × 0.01, `Bar.LabelWidth`) × tick count ≥ 90% of a positive figure width (≤ for a negative one); with numpy's IEEE division, zero ticks never rotate and a zero width rotates exactly when the label width is positive |
| BarExample.SampleGrid | tufte/bar.py:61-82 | for labels A–F with center alignment every grid line runs from −0.5 to 5.5 |

## Left out

- Styling through rcParams, the spine visibility, colours and tick_params
  calls (`set_base_spines`, `set_spines`, the Bar spine setter): these
  only change matplotlib appearance. `GetCanvas` records them as steps
  with no effect on the modelled axes state.
- Rendering by matplotlib: `ax.plot`, `ax.scatter`, `ax.bar`, `plt.xticks`
  and figure creation. The model stops at the draw commands and the rotation decision.
- The mean and standard deviation in `get_summary_statistics`: nothing downstream reads them.
- The line, scatter and multi-plot charts, the `main` helpers, packaging and
  the image-comparison tests: they are outside the modelled core.
- Bar.plot's end-to-end wiring: `Bar` does not define the abstract
  `get_axis_values` and `set_spines`, so the class cannot be instantiated as
  written. It also calls `next()` on arrays and passes `set_ticks`
  positional arguments that `get_canvas` would pass as keywords. The model
  composes the intended pieces instead (`Bar.PlotGrid`).
- FitAxisRange with a DataFrame: `fit_axis_range` takes `min().min()`
  so that a DataFrame also works. The model handles only one-dimensional samples.
- Canvas.Fit: a name given without a table becomes a 0-d string array in the
  source. The model reports it as an error, because no numeric statistic is defined on it.
  A generator or other non-sequence iterable also becomes a 0-d object array under
  `np.array`, not its values, and the box statistics then raise. `Spec` has no
  form for such an argument, so that path is not modelled.
- Bar.Lower: folds ASCII letters only. Python's `str.lower` folds all of Unicode.
- Bar.Unique: keeps first-occurrence order rather than np.unique's sorted order.
  Only the count is used downstream.
- Bar.ShouldRotate: the tick locations, labels and font sizes are parameters,
  not read from a live figure. NaN and infinite intermediate values are
  resolved to the comparison outcome they produce rather than modelled as floats.
- Bar.GridCoversBars: stated for categorical x only. There matplotlib puts the
  bar of the i-th distinct label at position i, centred on it or starting at it.
  For numeric x, `ax.bar` draws each bar at its x value while the grid is laid
  out over `range(len(x))`, so the grid need not cover the bars.
- Floating-point rounding and int64 wrap-around: all arithmetic is exact over the
  reals. Integer arrays such as the repository's sample are int64 in numpy, so
  `array_max - array_min` in `fit_axis_range` and `max_val - min_val` in Box's
  `set_ticks` would wrap past 2^63. Neither effect is modelled.
- Canvas.SetAxis, Canvas.GetCanvas, Box.SetTicks, Box.PlotLimits: the limits are
  stated as the source computes them. For a constant sample these are zero-width
  intervals (c, c), and Bar.plot's final `set_axis(xlim=(0, 0), xbounds=(0, 0),
  ylim=(0, 0), ybounds=(0, 0))` asks for (0, 0) on both axes. Matplotlib's
  `set_xlim`/`set_ylim` would widen such limits, and that widening is not modelled.
- Bar.ShouldRotate: the figure width is a parameter. The source reads
  `self.fig`, which exists only when the chart created its own figure
  (no `ax` passed). With a caller-supplied `ax` it raises AttributeError, and
  this failure is not modelled.

=== FILE: bar.dfy ===
/** The bar chart's computations: the align keyword, the tick extent and
    white grid lines drawn across the bars, the categorical axis values and
    the rule for rotating crowded tick labels. */
module Bar {
  import opened Outcomes
  import opened Stats
  import opened Canvas

  /** str.lower restricted to ASCII letters. */
  function LowerChar(c: char): char {
    if 'A' <= c <= 'Z' then (c as int + 32) as char else c
  }

  /** str.lower: no upper-case ASCII letter is left, and a character changes
      only when it is one, into its lower-case partner 32 code points on. */
  function Lower(s: string): (r: string)
    ensures |r| == |s|
    ensures forall i | 0 <= i < |r| :: !('A' <= r[i] <= 'Z')
    ensures forall i | 0 <= i < |s| ::
      r[i] != s[i] ==> 'A' <= s[i] <= 'Z' && r[i] as int == s[i] as int + 32
  {
    seq(|s|, i requires 0 <= i < |s| => LowerChar(s[i]))
  }

  lemma LowerIdempotent(s: string)
    ensures Lower(Lower(s)) == Lower(s)
  {
  }

  /** The (lower, upper) padding set_ticks adds around the bars for an
      align value matched case-insensitively; any other value is a
      ValueError naming it. */
  function Buffers(align: string, width: real): (r: Result<(real, real)>)
    ensures r.Ok? <==> Lower(align) == "center" || Lower(align) == "edge"
    ensures Lower(align) == "center" ==> r == Ok((0.5, 0.5))
    ensures Lower(align) == "edge" ==> r == Ok((0.25, width + 0.25))
    ensures r.Err? ==> r.error == BadAlign(align)
  {
    var a := Lower(align);
    if a == "center" then Ok((0.5, 0.5))
    else if a == "edge" then Ok((0.25, width + 0.25))
    else Err(BadAlign(align))
  }

  /** The two spellings the plotting library's bar call accepts select their
      buffers directly. */
  lemma ExactBuffers(width: real)
    ensures Buffers("center", width) == Ok((0.5, 0.5))
    ensures Buffers("edge", width) == Ok((0.25, width + 0.25))
  {
    assert Lower("center") == "center";
    assert Lower("edge") == "edge";
  }

  /** Changing the case of align changes nothing but the error message. */
  lemma BuffersCaseInsensitive(align: string, width: real)
    ensures Buffers(Lower(align), width).Ok? == Buffers(align, width).Ok?
    ensures Buffers(align, width).Ok? ==> Buffers(Lower(align), width) == Buffers(align, width)
  {
    LowerIdempotent(align);
  }

  /** The major tick locations t with lo <= t <= hi, in their order. */
  function Keep(ticks: seq<real>, lo: real, hi: real): (r: seq<real>)
    ensures |r| <= |ticks|
    ensures forall t :: t in r <==> t in ticks && lo <= t <= hi
  {
    if |ticks| == 0 then []
    else
      var rest := Keep(ticks[1..], lo, hi);
      assert ticks == [ticks[0]] + ticks[1..];
      if lo <= ticks[0] <= hi then [ticks[0]] + rest else rest
  }

  /** Filtering distributes over concatenation: the kept ticks keep their
      original relative order. */
  lemma {:induction false} KeepAppend(a: seq<real>, b: seq<real>, lo: real, hi: real)
    ensures Keep(a + b, lo, hi) == Keep(a, lo, hi) + Keep(b, lo, hi)
  {
    if |a| == 0 {
      assert a + b == b;
    } else {
      assert (a + b)[1..] == a[1..] + b;
      KeepAppend(a[1..], b, lo, hi);
    }
  }

  /** Python's s[1:-1]: everything but the first and the last element. */
  function Inner(s: seq<real>): (r: seq<real>)
    ensures |r| == if |s| < 2 then 0 else |s| - 2
    ensures forall i | 0 <= i < |r| :: r[i] == s[i + 1]
  {
    if |s| < 2 then [] else s[1..|s| - 1]
  }

  /** What Bar.set_ticks computes: the extent list and one grid line per y
      tick. */
  datatype BarTicks = BarTicks(extent: seq<real>, grid: seq<Draw>)

  /** Bar.set_ticks: validate align, keep the x ticks inside
      [min(xrange), max(xrange)], replace the first and last kept tick with
      the buffered extremes, and draw a horizontal grid line across that
      extent at every y tick. */
  function SetTicks(
    xrange: seq<real>, align: string, width: real,
    xticks: seq<real>, yticks: seq<real>, gridcolor: string): (r: Result<BarTicks>)
    ensures Buffers(align, width).Err? ==> r == Err(BadAlign(align))
    ensures Buffers(align, width).Ok? && |xrange| == 0 ==> r == Err(EmptySample)
    ensures r.Ok? <==> Buffers(align, width).Ok? && |xrange| > 0
    ensures r.Ok? ==>
      var (lower, upper) := Buffers(align, width).value;
      var xmin := Min(xrange);
      var xmax := Max(xrange);
      var kept := Keep(xticks, xmin, xmax);
      var e := r.value.extent;
      && |e| == (if |kept| < 2 then 2 else |kept|)
      && e[0] == xmin - lower
      && e[|e| - 1] == xmax + upper
      && (forall i | 1 <= i < |e| - 1 :: e[i] == kept[i])
      && |r.value.grid| == |yticks|
      && (forall i | 0 <= i < |yticks| ::
            r.value.grid[i] == Segment(xmin - lower, xmax + upper, yticks[i], yticks[i], gridcolor, 1.25))
  {
    match Buffers(align, width)
    case Err(e) => Err(e)
    case Ok((lower, upper)) =>
      if |xrange| == 0 then Err(EmptySample)
      else
        var xmin := Min(xrange);
        var xmax := Max(xrange);
        var kept := Keep(xticks, xmin, xmax);
        var extent := [xmin - lower] + Inner(kept) + [xmax + upper];
        var grid := seq(|yticks|, i requires 0 <= i < |yticks| =>
          Segment(extent[0], extent[|extent| - 1], yticks[i], yticks[i], gridcolor, 1.25));
        Ok(BarTicks(extent, grid))
  }

  /** The values plotted on one axis: numbers, or category labels. */
  datatype Series = Numbers(values: seq<real>) | Labels(labels: seq<string>)

  ghost predicate Distinct<T>(s: seq<T>) {
    forall i, j | 0 <= i < j < |s| :: s[i] != s[j]
  }

  /** np.unique on labels, up to order: each label exactly once. */
  function Unique(s: seq<string>): (r: seq<string>)
    ensures Distinct(r)
    ensures forall x :: x in r <==> x in s
  {
    if |s| == 0 then []
    else
      var rest := Unique(s[1..]);
      assert s == [s[0]] + s[1..];
      if s[0] in s[1..] then rest else [s[0]] + rest
  }

  /** A sequence without repetitions has as many elements as its set. */
  lemma {:induction false} DistinctCard<T>(s: seq<T>)
    requires Distinct(s)
    ensures |set x | x in s| == |s|
  {
    if |s| > 0 {
      var tail := s[1..];
      assert Distinct(tail) by {
        forall i, j | 0 <= i < j < |tail|
          ensures tail[i] != tail[j]
        {
          assert tail[i] == s[i + 1] && tail[j] == s[j + 1];
        }
      }
      DistinctCard(tail);
      assert s[0] !in tail by {
        forall i | 0 <= i < |tail|
          ensures tail[i] != s[0]
        {
          assert tail[i] == s[i + 1];
        }
      }
      assert (set x | x in s) == (set x | x in tail) + {s[0]} by {
        assert s == [s[0]] + tail;
      }
    }
  }

  /** How many positions an axis gets: one per value, or one per distinct
      label. */
  function Levels(s: Series): (n: nat)
    ensures s.Numbers? ==> n == |s.values|
    ensures s.Labels? ==> n == |set x | x in s.labels|
  {
    match s
    case Numbers(values) => |values|
    case Labels(labels) =>
      var u := Unique(labels);
      DistinctCard(u);
      assert (set x | x in u) == (set x | x in labels);
      |u|
  }

  /** Python's range(n), as reals. */
  function Range(n: nat): (r: seq<real>)
    ensures |r| == n
    ensures forall i | 0 <= i < n :: r[i] == i as real
  {
    seq(n, i requires 0 <= i < n => i as real)
  }

  /** range(n + 1) is range(n) followed by n, and range(0) is empty. */
  lemma RangeExtend(n: nat)
    ensures Range(0) == []
    ensures Range(n + 1) == Range(n) + [n as real]
  {
    assert Range(n + 1)[..n] == Range(n);
  }

  /** fit_axis_values: range(len(values)) for each axis, where values are the
      distinct labels for categorical input. Reading the first element of
      each series to test its type fails on an empty one. */
  function FitAxisValues(x: Series, y: Series): (r: Result<(seq<real>, seq<real>)>)
    ensures r.Ok? <==> Levels(x) > 0 && Levels(y) > 0
    ensures r.Err? ==> r.error == EmptySample
    ensures r.Ok? ==> |r.value.0| == Levels(x) && |r.value.1| == Levels(y)
    ensures r.Ok? ==> forall i | 0 <= i < |r.value.0| :: r.value.0[i] == i as real
    ensures r.Ok? ==> forall i | 0 <= i < |r.value.1| :: r.value.1[i] == i as real
  {
    if Levels(x) == 0 || Levels(y) == 0 then Err(EmptySample)
    else Ok((Range(Levels(x)), Range(Levels(y))))
  }

  /** range(n) runs from 0 to n - 1. */
  lemma RangeExtremes(n: nat)
    requires n > 0
    ensures Min(Range(n)) == 0.0
    ensures Max(Range(n)) == (n - 1) as real
  {
    var r := Range(n);
    assert IsMin(0.0, r) by {
      assert r[0] == 0.0;
    }
    assert IsMax((n - 1) as real, r) by {
      assert r[n - 1] == (n - 1) as real;
    }
    ExtremesUnique(r, Min(r), 0.0);
    ExtremesUnique(r, Max(r), (n - 1) as real);
  }

  /** Bar.plot's grid: fit_axis_values, then set_ticks over the x positions
      it assigns. An empty series fails first, then a bad align; otherwise
      every grid line runs from the lower buffer left of position 0 to the
      upper buffer right of the last position. */
  function PlotGrid(
    x: Series, y: Series, align: string, width: real,
    xticks: seq<real>, yticks: seq<real>, gridcolor: string): (r: Result<BarTicks>)
    ensures r.Ok? <==> Levels(x) > 0 && Levels(y) > 0 && Buffers(align, width).Ok?
    ensures Levels(x) == 0 || Levels(y) == 0 ==> r == Err(EmptySample)
    ensures Levels(x) > 0 && Levels(y) > 0 && Buffers(align, width).Err? ==> r == Err(BadAlign(align))
    ensures r.Ok? ==>
      var (lower, upper) := Buffers(align, width).value;
      && |r.value.grid| == |yticks|
      && forall k | 0 <= k < |yticks| ::
           r.value.grid[k] == Segment(-lower, (Levels(x) - 1) as real + upper, yticks[k], yticks[k], gridcolor, 1.25)
  {
    match FitAxisValues(x, y)
    case Err(e) => Err(e)
    case Ok((positions, _)) =>
      assert positions == Range(Levels(x));
      RangeExtremes(Levels(x));
      SetTicks(positions, align, width, xticks, yticks, gridcolor)
  }

  /** The horizontal span matplotlib gives the bar at position i: centred on
      it, or starting at it. */
  function BarSpan(i: nat, alignCenter: bool, width: real): Interval {
    if alignCenter then Interval(i as real - width / 2.0, i as real + width / 2.0)
    else Interval(i as real, i as real + width)
  }

  /** Every grid line spans every bar of a categorical x axis, where the
      plotting library puts the bar of the i-th distinct label at position i
      (its bar call accepts align only as exactly "center" or "edge"):
      with n positions the lines run from -0.5 to n - 0.5 (center) or from
      -0.25 to n - 1 + width + 0.25 (edge), which covers each bar of width at
      most 1 (center) or any non-negative width (edge). */
  lemma GridCoversBars(
    x: Series, y: Series, align: string, width: real,
    xticks: seq<real>, yticks: seq<real>, gridcolor: string, i: nat, k: nat)
    requires x.Labels?
    requires align == "center" || align == "edge"
    requires PlotGrid(x, y, align, width, xticks, yticks, gridcolor).Ok?
    requires i < Levels(x)
    requires k < |yticks|
    requires 0.0 <= width
    requires align == "center" ==> width <= 1.0
    ensures var g := PlotGrid(x, y, align, width, xticks, yticks, gridcolor).value.grid[k];
      var bar := BarSpan(i, align == "center", width);
      g.x0 <= bar.lo && bar.hi <= g.x1
  {
    ExactBuffers(width);
  }

  /** A tick label's text and font size. */
  datatype TickLabel = TickLabel(text: string, fontSize: real)

  /** The length of the longest tick label text. */
  function MaxTextLength(labels: seq<TickLabel>): (m: nat)
    requires |labels| > 0
    ensures forall i | 0 <= i < |labels| :: |labels[i].text| <= m
    ensures exists i | 0 <= i < |labels| :: |labels[i].text| == m
  {
    if |labels| == 1 then |labels[0].text|
    else
      var rest := MaxTextLength(labels[1..]);
      assert forall i | 1 <= i < |labels| :: labels[i] == labels[1..][i - 1];
      if |labels[0].text| >= rest then |labels[0].text|
      else
        var j :| 0 <= j < |labels[1..]| && |labels[1..][j].text| == rest;
        assert |labels[j + 1].text| == rest;
        rest
  }

  /** auto_rotate_xticklabel's font rate: a character is 0.01 of the font
      size wide. */
  const FontRate: real := 0.01

  /** The width of the widest label: its characters times the first
      label's font size times the font rate. */
  function LabelWidth(labels: seq<TickLabel>): real
    requires |labels| > 0
  {
    MaxTextLength(labels) as real * (labels[0].fontSize * FontRate)
  }

  /** auto_rotate_xticklabel: rotate when the widest label takes at least
      90% of the space per tick, that is when n labels that wide would fill
      at least 90% of the figure (at most, for a negative width, where the
      inequality flips). The figure width is a numpy float, so both divisions
      follow IEEE 754 and never raise: with no ticks the spacing is infinite
      or NaN and the ratio is 0 or NaN, so no rotation; with a zero width
      the ratio is +inf exactly when the label width is positive. Only
      reading the font size of no labels raises. */
  function ShouldRotate(figWidth: real, nTicks: nat, labels: seq<TickLabel>): (r: Result<bool>)
    ensures r.Err? <==> |labels| == 0
    ensures r.Err? ==> r.error == NoTickLabels
    ensures |labels| > 0 && nTicks == 0 ==> r == Ok(false)
    ensures |labels| > 0 && nTicks > 0 && figWidth == 0.0 ==> r == Ok(LabelWidth(labels) > 0.0)
    ensures |labels| > 0 && nTicks > 0 && figWidth > 0.0 ==>
      r == Ok(LabelWidth(labels) * nTicks as real >= 0.9 * figWidth)
    ensures |labels| > 0 && nTicks > 0 && figWidth < 0.0 ==>
      r == Ok(LabelWidth(labels) * nTicks as real <= 0.9 * figWidth)
  {
    if |labels| == 0 then Err(NoTickLabels)
    else
      var labelWidth := LabelWidth(labels);
      if nTicks == 0 then Ok(false)
      else
        var spacing := figWidth / nTicks as real;
        RotateThreshold(labelWidth, figWidth, nTicks as real);
        if spacing == 0.0 then Ok(labelWidth > 0.0)
        else Ok(labelWidth / spacing >= 0.90)
  }

  /** w / (f / n) >= 0.9 exactly when w·n >= 0.9·f for positive f, and
      exactly when w·n <= 0.9·f for negative f (n > 0); f / n is zero only
      for a zero f. */
  lemma RotateThreshold(w: real, f: real, n: real)
    requires n > 0.0
    ensures f > 0.0 ==> (w / (f / n) >= 0.90 <==> w * n >= 0.9 * f)
    ensures f < 0.0 ==> (w / (f / n) >= 0.90 <==> w * n <= 0.9 * f)
    ensures f / n == 0.0 <==> f == 0.0
  {
    var spacing := f / n;
    if f > 0.0 {
      assert spacing > 0.0;
      assert spacing * n == f;
      assert w / spacing >= 0.9 <==> w >= 0.9 * spacing;
      assert w >= 0.9 * spacing <==> w * n >= 0.9 * spacing * n;
    } else if f < 0.0 {
      assert spacing < 0.0;
      assert spacing * n == f;
      assert w / spacing >= 0.9 <==> w <= 0.9 * spacing;
      assert w <= 0.9 * spacing <==> w * n <= 0.9 * spacing * n;
    }
  }
}

=== FILE: bar_example.dfy ===
/** The bar chart of six categories A..F with heights 41, 23, 48, 84, 32, 38
    drawn with the default center alignment. */
module BarExample {
  import opened Outcomes
  import opened Canvas
  import opened Bar

  /** Six distinct labels give six positions, 0 through 5. */
  lemma SampleAxisValues(labels: seq<string>, heights: seq<real>)
    requires labels == ["A", "B", "C", "D", "E", "F"]
    requires heights == [41.0, 23.0, 48.0, 84.0, 32.0, 38.0]
    ensures FitAxisValues(Labels(labels), Numbers(heights)) == Ok((Range(6), Range(6)))
  {
    assert Distinct(labels);
    DistinctCard(labels);
  }

  /** With center alignment every grid line runs from -0.5 to 5.5, half a
      unit beyond the first and last bar position. */
  lemma SampleGrid(labels: seq<string>, heights: seq<real>, xticks: seq<real>, yticks: seq<real>, k: nat)
    requires labels == ["A", "B", "C", "D", "E", "F"]
    requires heights == [41.0, 23.0, 48.0, 84.0, 32.0, 38.0]
    requires k < |yticks|
    ensures var g := PlotGrid(Labels(labels), Numbers(heights), "center", 0.5, xticks, yticks, "white");
      g.Ok? && g.value.grid[k] == Segment(-0.5, 5.5, yticks[k], yticks[k], "white", 1.25)
  {
    assert Levels(Labels(labels)) == 6 by {
      SampleAxisValues(labels, heights);
    }
    ExactBuffers(0.5);
  }
}

=== FILE: box.dfy ===
/** The box chart: a five-number summary with 1.5·IQR whiskers, drawn as two
    whisker segments and a median point at x = 0, then formatted by the
    shared get_canvas sequence. */
module Box {
  import opened Outcomes
  import opened Stats
  import opened Canvas

  /** get_summary_statistics without the mean and standard deviation. */
  datatype Summary = Summary(
    min: real, q25: real, median: real, q75: real, max: real,
    iqr: real, lowerBound: real, upperBound: real)

  /** The padding fraction Box.plot passes to get_canvas. */
  const Pad: real := 0.05

  /** get_summary_statistics: extremes, linear quartiles, np.median, the
      interquartile range and the whiskers 1.5·IQR beyond the quartiles. */
  function SummaryStatistics(sample: seq<real>): (r: Result<Summary>)
    ensures r.Ok? <==> |sample| > 0
    ensures r.Err? ==> r.error == EmptySample
    ensures r.Ok? ==>
      var s := r.value;
      && IsMin(s.min, sample) && IsMax(s.max, sample)
      && s.q25 == Percentile(sample, 25.0)
      && s.median == Percentile(sample, 50.0)
      && s.q75 == Percentile(sample, 75.0)
      && s.iqr == s.q75 - s.q25 && s.iqr >= 0.0
      && s.lowerBound == s.q25 - 1.5 * s.iqr
      && s.upperBound == s.q75 + 1.5 * s.iqr
      && s.min <= s.q25 <= s.median <= s.q75 <= s.max
      && s.lowerBound <= s.q25 && s.q75 <= s.upperBound
  {
    if |sample| == 0 then Err(EmptySample)
    else
      var q25 := Percentile(sample, 25.0);
      var q75 := Percentile(sample, 75.0);
      var iqr := q75 - q25;
      MedianIsPercentile50(sample);
      PercentileMonotone(sample, 25.0, 50.0);
      PercentileMonotone(sample, 50.0, 75.0);
      Ok(Summary(Min(sample), q25, Median(sample), q75, Max(sample),
                 iqr, q25 - 1.5 * iqr, q75 + 1.5 * iqr))
  }

  /** An all-equal sample has zero IQR and both whiskers at the common value. */
  lemma SummaryOfConstant(sample: seq<real>, c: real)
    requires |sample| > 0
    requires forall i | 0 <= i < |sample| :: sample[i] == c
    ensures var s := SummaryStatistics(sample).value;
      s.iqr == 0.0 && s.lowerBound == c && s.upperBound == c
      && s.min == c && s.q25 == c && s.median == c && s.q75 == c && s.max == c
  {
    var s := SummaryStatistics(sample).value;
    PercentileOfConstant(sample, c, 25.0);
    PercentileOfConstant(sample, c, 50.0);
    PercentileOfConstant(sample, c, 75.0);
    var i :| 0 <= i < |sample| && sample[i] == s.min;
    var j :| 0 <= j < |sample| && sample[j] == s.max;
  }

  /** get_axis_values: xlim is the padded range and xbounds the raw
      extremes of the sample, both from fit_axis_range. */
  function GetAxisValues(pad: real, sample: seq<real>): (r: Result<AxisValues>)
    ensures r.Ok? <==> |sample| > 0
    ensures r.Err? ==> r.error == EmptySample
    ensures r.Ok? ==>
      var a := FitAxisRange(sample, pad).value;
      && r.value.ylim.None? && r.value.ybounds.None?
      && r.value.xlim == Some((a.lower, a.upper))
      && r.value.xbounds == Some((a.min, a.max))
      && IsMin(a.min, sample) && IsMax(a.max, sample)
  {
    match FitAxisRange(sample, pad)
    case Err(e) => Err(e)
    case Ok(a) => Ok(AxisValues(Some((a.lower, a.upper)), Some((a.min, a.max)), None, None))
  }

  /** Box.set_ticks: the y view limits become the span of xbounds widened by
      5% of its length on each side; nothing else changes. */
  function SetTicks(ax: Axes, values: AxisValues): (r: Result<Axes>)
    ensures r.Ok? <==> values.xbounds.Some?
    ensures r.Err? ==> r.error == MissingArgument("xbounds")
    ensures r.Ok? ==>
      var b := SpanOf(values.xbounds.value);
      && r.value == ax.(ylim := r.value.ylim)
      && r.value.ylim.lo <= b.lo <= b.hi <= r.value.ylim.hi
      && b.lo - r.value.ylim.lo == r.value.ylim.hi - b.hi == (b.hi - b.lo) * 0.05
  {
    match values.xbounds
    case None => Err(MissingArgument("xbounds"))
    case Some(bounds) =>
      var b := SpanOf(bounds);
      var range := b.hi - b.lo;
      ScaleMonotone(0.05, 0.0, range);
      Ok(ax.(ylim := Interval(b.lo - range * 0.05, b.hi + range * 0.05)))
  }

  /** Box.set_ticks does not depend on the order of the xbounds pair. */
  lemma SetTicksOrderInsensitive(ax: Axes, values: AxisValues)
    requires values.xbounds.Some?
    ensures var (a, b) := values.xbounds.value;
      SetTicks(ax, values) == SetTicks(ax, values.(xbounds := Some((b, a))))
  {
    var (a, b) := values.xbounds.value;
    SpansUnique(SpanOf((a, b)), SpanOf((b, a)), (a, b));
  }

  /** The commands Box.plot issues: the lower whisker, the upper whisker,
      and the median point, all at x = 0. */
  function WhiskerDraws(s: Summary): seq<Draw> {
    [ Segment(0.0, 0.0, s.lowerBound, s.q25, "black", 0.5),
      Segment(0.0, 0.0, s.q75, s.upperBound, "black", 0.5),
      Marker(0.0, s.median, "black", 5.0) ]
  }

  /** The chart Box.plot leaves behind: its draw commands and the outcome
      of get_canvas. */
  datatype Figure = Figure(draws: seq<Draw>, rendering: Rendering)

  /** Box.plot: resolve the sample (no table is ever passed), summarise it,
      draw whiskers and median, then run get_canvas with pad 0.05. */
  function Plot(input: Spec<real>, ax: Axes, xlabel: string, ylabel: string): (r: Result<Figure>)
    ensures r.Ok? <==> input.Literal? && |input.values| > 0
    ensures r.Ok? ==>
      var s := SummaryStatistics(input.values).value;
      && |r.value.draws| == 3
      && r.value.draws[0] == Segment(0.0, 0.0, s.lowerBound, s.q25, "black", 0.5)
      && r.value.draws[1] == Segment(0.0, 0.0, s.q75, s.upperBound, "black", 0.5)
      && r.value.draws[2] == Marker(0.0, s.median, "black", 5.0)
      && r.value.draws[0].y1 <= r.value.draws[2].y <= r.value.draws[1].y0
      && r.value.rendering.failure.None?
  {
    match Fit(input, None)
    case Err(e) => Err(e)
    case Ok(sample) =>
      match SummaryStatistics(sample)
      case Err(e) => Err(e)
      case Ok(s) =>
        var rendering := GetCanvas(ax, xlabel, ylabel, GetAxisValues(Pad, sample), SetTicks);
        match rendering.failure
        case Some(e) => Err(e)
        case None => Ok(Figure(WhiskerDraws(s), rendering))
  }

  /** After Box.plot the x view limits are the padded sample range, the
      bottom spine spans the raw extremes, and the y view limits coincide
      with the x view limits (set_ticks widens by the same 5% get_canvas
      pads with). Every draw sits at x = 0, which is inside the x view
      limits only when the padded sample range contains 0. */
  lemma PlotLimits(sample: seq<real>, ax: Axes, xlabel: string, ylabel: string)
    requires |sample| > 0
    ensures var f := Plot(Literal(sample), ax, xlabel, ylabel).value;
      var a := FitAxisRange(sample, Pad).value;
      var axes := f.rendering.axes;
      && axes.xspine == Interval(a.min, a.max)
      && axes.xlim == Interval(a.lower, a.upper)
      && axes.ylim == axes.xlim
      && axes.yspine == ax.yspine
      && axes.xlabel == xlabel && axes.ylabel == ylabel
      && (forall d | d in f.draws :: d.Segment? ==> d.x0 == 0.0 && d.x1 == 0.0)
      && (forall d | d in f.draws :: d.Marker? ==> d.x == 0.0)
  {
    var ticked := BoxAxes(sample, ax);
    PlotIsCanvas(sample, ax, xlabel, ylabel);
    assert Plot(Literal(sample), ax, xlabel, ylabel).value.rendering.axes
      == ticked.(xlabel := xlabel, ylabel := ylabel);
  }

  /** The axes get_canvas leaves before the labels: set_axis with the box
      axis values followed by Box.set_ticks. */
  lemma BoxAxes(sample: seq<real>, ax: Axes) returns (ticked: Axes)
    requires |sample| > 0
    ensures var a := FitAxisRange(sample, Pad).value;
      var values := GetAxisValues(Pad, sample).value;
      && ticked == ax.(xlim := Interval(a.lower, a.upper), xspine := Interval(a.min, a.max),
                       ylim := Interval(a.lower, a.upper))
      && SetTicks(SetAxis(ax, values), values) == Ok(ticked)
  {
    var a := FitAxisRange(sample, Pad).value;
    FitAxisRangeOrdered(sample, Pad);
    var values := GetAxisValues(Pad, sample).value;
    var limited := ax.(xlim := Interval(a.lower, a.upper), xspine := Interval(a.min, a.max));
    assert SetAxis(ax, values) == limited;
    var range := a.max - a.min;
    assert a.lower == a.min - range * 0.05;
    assert a.upper == a.max + range * 0.05;
    ticked := limited.(ylim := Interval(a.lower, a.upper));
  }

  /** On a non-empty literal, Box.plot is the whisker draws plus get_canvas. */
  lemma PlotIsCanvas(sample: seq<real>, ax: Axes, xlabel: string, ylabel: string)
    requires |sample| > 0
    ensures Plot(Literal(sample), ax, xlabel, ylabel)
      == Ok(Figure(WhiskerDraws(SummaryStatistics(sample).value),
                   GetCanvas(ax, xlabel, ylabel, GetAxisValues(Pad, sample), SetTicks)))
  {
    var _ := BoxAxes(sample, ax);
  }
}

=== FILE: box_example.dfy ===
/** The box summary of the six-value sample [41, 23, 48, 84, 32, 38], worked
    out with numpy's linear percentile: sorted it is
    [23, 32, 38, 41, 48, 84], so the quartile ranks 1.25 and 3.75 give
    33.5 and 46.25. */
module BoxExample {
  import opened Outcomes
  import opened Stats
  import opened Box

  lemma SortedValues(t: seq<real>)
    requires t == [23.0, 32.0, 38.0, 41.0, 48.0, 84.0]
    ensures Sorted(t)
  {
  }

  lemma SameValues(sample: seq<real>, t: seq<real>)
    requires sample == [41.0, 23.0, 48.0, 84.0, 32.0, 38.0]
    requires t == [23.0, 32.0, 38.0, 41.0, 48.0, 84.0]
    ensures multiset(sample) == multiset(t)
  {
  }

  lemma SampleSort(sample: seq<real>)
    requires sample == [41.0, 23.0, 48.0, 84.0, 32.0, 38.0]
    ensures Sort(sample) == [23.0, 32.0, 38.0, 41.0, 48.0, 84.0]
  {
    var t := [23.0, 32.0, 38.0, 41.0, 48.0, 84.0];
    SortedValues(t);
    SameValues(sample, t);
    SortIsTheSortedPermutation(sample, t);
  }

  lemma SortedQuartiles(t: seq<real>)
    requires t == [23.0, 32.0, 38.0, 41.0, 48.0, 84.0]
    ensures InterpolateAt(t, 1.25) == 33.5
    ensures InterpolateAt(t, 2.5) == 39.5
    ensures InterpolateAt(t, 3.75) == 46.25
  {
    assert (1.25).Floor == 1 && (2.5).Floor == 2 && (3.75).Floor == 3;
    InterpolateInCell(t, 1.25, 1);
    InterpolateInCell(t, 2.5, 2);
    InterpolateInCell(t, 3.75, 3);
  }

  lemma SampleRanks()
    ensures Rank(6, 25.0) == 1.25
    ensures Rank(6, 50.0) == 2.5
    ensures Rank(6, 75.0) == 3.75
  {
  }

  lemma SampleQuartiles(sample: seq<real>)
    requires sample == [41.0, 23.0, 48.0, 84.0, 32.0, 38.0]
    ensures Percentile(sample, 25.0) == 33.5
    ensures Percentile(sample, 50.0) == 39.5
    ensures Percentile(sample, 75.0) == 46.25
  {
    var t := [23.0, 32.0, 38.0, 41.0, 48.0, 84.0];
    SampleSort(sample);
    assert |sample| == 6;
    SampleRanks();
    SortedQuartiles(t);
  }

  lemma SampleExtremes(sample: seq<real>)
    requires sample == [41.0, 23.0, 48.0, 84.0, 32.0, 38.0]
    ensures Min(sample) == 23.0 && Max(sample) == 84.0
  {
    SampleSort(sample);
    SortEnds(sample);
  }

  /** The full summary: quartiles 33.5 and 46.25, IQR 12.75, whiskers
      14.375 and 65.375; 84 lies above the upper whisker. */
  lemma SampleSummary(sample: seq<real>)
    requires sample == [41.0, 23.0, 48.0, 84.0, 32.0, 38.0]
    ensures SummaryStatistics(sample)
      == Ok(Summary(23.0, 33.5, 39.5, 46.25, 84.0, 12.75, 14.375, 65.375))
  {
    SampleQuartiles(sample);
    SampleExtremes(sample);
    var s := SummaryStatistics(sample).value;
    assert s.q25 == 33.5 && s.q75 == 46.25;
    assert s.median == 39.5;
    ExtremesUnique(sample, s.min, 23.0);
    ExtremesUnique(sample, s.max, 84.0);
  }
}

=== FILE: canvas.dfy ===
/** The chart-independent part of the style library: padded axis ranges, the
    axes state that set_axis updates, the fixed formatting sequence of
    get_canvas, input resolution and default titles. Drawing on the
    plotting library is represented only as abstract commands. */
module Canvas {
  import opened Outcomes
  import opened Stats

  /** (min, lower, upper, max) as returned by fit_axis_range. */
  datatype AxisRange = AxisRange(min: real, lower: real, upper: real, max: real)

  /** A numeric extent of an axis or spine, stored as (low, high). */
  datatype Interval = Interval(lo: real, hi: real)

  /** The part of the plotting library's axes state the core writes: view
      limits, spine bounds, axis labels and the title. */
  datatype Axes = Axes(
    xlim: Interval, xspine: Interval,
    ylim: Interval, yspine: Interval,
    xlabel: string, ylabel: string, title: string)

  /** The keyword dictionary get_axis_values returns and set_axis and
      set_ticks receive; an absent key is None. */
  datatype AxisValues = AxisValues(
    xlim: Option<(real, real)>, xbounds: Option<(real, real)>,
    ylim: Option<(real, real)>, ybounds: Option<(real, real)>)

  /** An abstract draw call issued to the plotting library. */
  datatype Draw =
    | Segment(x0: real, x1: real, y0: real, y1: real, color: string, linewidth: real)
    | Marker(x: real, y: real, color: string, size: real)

  /** fit_axis_range: the sample's extremes and a range padded on both
      sides by the fraction pad of the data span. */
  function FitAxisRange(sample: seq<real>, pad: real): (r: Result<AxisRange>)
    ensures r.Ok? <==> |sample| > 0
    ensures r.Err? ==> r.error == EmptySample
    ensures r.Ok? ==> IsMin(r.value.min, sample) && IsMax(r.value.max, sample)
    ensures r.Ok? ==> r.value.min - r.value.lower == (r.value.max - r.value.min) * pad
    ensures r.Ok? ==> r.value.upper - r.value.max == (r.value.max - r.value.min) * pad
  {
    if |sample| == 0 then Err(EmptySample)
    else
      var lo := Min(sample);
      var hi := Max(sample);
      Ok(AxisRange(lo, lo - (hi - lo) * pad, hi + (hi - lo) * pad, hi))
  }

  /** For a non-negative pad the padded range encloses the data:
      lower <= min <= max <= upper. */
  lemma FitAxisRangeOrdered(sample: seq<real>, pad: real)
    requires |sample| > 0
    requires pad >= 0.0
    ensures var a := FitAxisRange(sample, pad).value;
      a.lower <= a.min <= a.max <= a.upper
  {
    var a := FitAxisRange(sample, pad).value;
    assert a.min in sample;
    assert a.min <= a.max;
    ScaleMonotone(pad, 0.0, a.max - a.min);
  }

  /** The padding is the same on both sides. */
  lemma FitAxisRangeSymmetric(sample: seq<real>, pad: real)
    requires |sample| > 0
    ensures var a := FitAxisRange(sample, pad).value;
      a.min - a.lower == a.upper - a.max
  {
  }

  /** With a non-empty span, the padded bound meets the data exactly when
      pad is zero (on either side). */
  lemma FitAxisRangeTightIff(sample: seq<real>, pad: real)
    requires |sample| > 0
    ensures var a := FitAxisRange(sample, pad).value;
      (a.lower == a.min <==> pad == 0.0 || a.min == a.max)
      && (a.upper == a.max <==> pad == 0.0 || a.min == a.max)
  {
    var a := FitAxisRange(sample, pad).value;
    if a.lower == a.min && a.min != a.max {
      assert (a.max - a.min) * pad == 0.0;
    }
  }

  /** A constant sample gives four equal values whatever the pad, and no
      error: the source does not guard the zero span. */
  lemma FitAxisRangeConstant(sample: seq<real>, c: real, pad: real)
    requires |sample| > 0
    requires forall i | 0 <= i < |sample| :: sample[i] == c
    ensures FitAxisRange(sample, pad) == Ok(AxisRange(c, c, c, c))
  {
    var a := FitAxisRange(sample, pad).value;
    var i :| 0 <= i < |sample| && sample[i] == a.min;
    var j :| 0 <= j < |sample| && sample[j] == a.max;
    assert a.min == c && a.max == c;
    assert (a.max - a.min) * pad == 0.0;
    assert a.lower == c && a.upper == c;
  }

  /** i is the pair p put in (min, max) order. */
  ghost predicate Spans(i: Interval, p: (real, real)) {
    i.lo <= i.hi && ((i.lo == p.0 && i.hi == p.1) || (i.lo == p.1 && i.hi == p.0))
  }

  /** Python's (min(p), max(p)) of a pair. */
  function SpanOf(p: (real, real)): (i: Interval)
    ensures Spans(i, p)
  {
    if p.0 <= p.1 then Interval(p.0, p.1) else Interval(p.1, p.0)
  }

  /** set_axis as a pure update: the x view limits and bottom spine change
      only when both xlim and xbounds are given, likewise for y; each pair
      is applied as (min, max). */
  function SetAxis(ax: Axes, v: AxisValues): (r: Axes)
    ensures v.xlim.Some? && v.xbounds.Some? ==>
      Spans(r.xlim, v.xlim.value) && Spans(r.xspine, v.xbounds.value)
    ensures !(v.xlim.Some? && v.xbounds.Some?) ==> r.xlim == ax.xlim && r.xspine == ax.xspine
    ensures v.ylim.Some? && v.ybounds.Some? ==>
      Spans(r.ylim, v.ylim.value) && Spans(r.yspine, v.ybounds.value)
    ensures !(v.ylim.Some? && v.ybounds.Some?) ==> r.ylim == ax.ylim && r.yspine == ax.yspine
    ensures r.xlabel == ax.xlabel && r.ylabel == ax.ylabel && r.title == ax.title
  {
    var afterX :=
      if v.xlim.Some? && v.xbounds.Some?
      then ax.(xlim := SpanOf(v.xlim.value), xspine := SpanOf(v.xbounds.value))
      else ax;
    if v.ylim.Some? && v.ybounds.Some?
    then afterX.(ylim := SpanOf(v.ylim.value), yspine := SpanOf(v.ybounds.value))
    else afterX
  }

  function SwapOption(p: Option<(real, real)>, swap: bool): Option<(real, real)> {
    if swap && p.Some? then Some((p.value.1, p.value.0)) else p
  }

  /** Two intervals spanning the same pair are the same interval. */
  lemma SpansUnique(i: Interval, j: Interval, p: (real, real))
    requires Spans(i, p) && Spans(j, p)
    ensures i == j
  {
  }

  /** set_axis does not depend on the order inside any of its four pairs. */
  lemma SetAxisOrderInsensitive(ax: Axes, v: AxisValues, swapXlim: bool, swapXbounds: bool, swapYlim: bool, swapYbounds: bool)
    ensures SetAxis(ax, v) == SetAxis(ax, AxisValues(
      SwapOption(v.xlim, swapXlim), SwapOption(v.xbounds, swapXbounds),
      SwapOption(v.ylim, swapYlim), SwapOption(v.ybounds, swapYbounds)))
  {
    var w := AxisValues(
      SwapOption(v.xlim, swapXlim), SwapOption(v.xbounds, swapXbounds),
      SwapOption(v.ylim, swapYlim), SwapOption(v.ybounds, swapYbounds));
    var r1 := SetAxis(ax, v);
    var r2 := SetAxis(ax, w);
    if v.xlim.Some? && v.xbounds.Some? {
      SpansUnique(r1.xlim, r2.xlim, v.xlim.value);
      SpansUnique(r1.xspine, r2.xspine, v.xbounds.value);
    }
    if v.ylim.Some? && v.ybounds.Some? {
      SpansUnique(r1.ylim, r2.ylim, v.ylim.value);
      SpansUnique(r1.yspine, r2.yspine, v.ybounds.value);
    }
  }

  /** Applying the same values twice is the same as applying them once. */
  lemma SetAxisIdempotent(ax: Axes, v: AxisValues)
    ensures SetAxis(SetAxis(ax, v), v) == SetAxis(ax, v)
  {
  }

  /** The formatting steps of get_canvas, in the order it runs them. */
  datatype Step =
    | BaseSpines
    | VariantSpines
    | ComputeAxisValues
    | ApplyAxis(values: AxisValues)
    | ApplyTicks(values: AxisValues)
    | ApplyLabels(xlabel: string, ylabel: string)

  /** The position each step has in get_canvas's fixed order. */
  function Position(s: Step): nat {
    match s
    case BaseSpines => 0
    case VariantSpines => 1
    case ComputeAxisValues => 2
    case ApplyAxis(_) => 3
    case ApplyTicks(_) => 4
    case ApplyLabels(_, _) => 5
  }

  /** What get_canvas did: the steps it started, the axes state it left and
      the exception that stopped it, if any. */
  datatype Rendering = Rendering(steps: seq<Step>, axes: Axes, failure: Option<Error>)

  /** get_canvas: base spines, variant spines, axis values, set_axis,
      set_ticks, labels. The chart variant supplies the result of its
      get_axis_values and its set_ticks. An exception from either stops the
      sequence; steps already run keep their effect. */
  function GetCanvas(
    ax: Axes, xlabel: string, ylabel: string,
    values: Result<AxisValues>,
    setTicks: (Axes, AxisValues) -> Result<Axes>): (r: Rendering)
    ensures forall i | 0 <= i < |r.steps| :: Position(r.steps[i]) == i
    ensures r.failure.None? <==> |r.steps| == 6
    ensures r.failure.None? ==>
      values.Ok? && r.steps[5] == ApplyLabels(xlabel, ylabel)
      && r.axes.xlabel == xlabel && r.axes.ylabel == ylabel
    ensures values.Ok? ==>
      |r.steps| >= 5 && r.steps[3] == ApplyAxis(values.value) && r.steps[4] == ApplyTicks(values.value)
    ensures values.Err? ==> r.failure == Some(values.error) && r.axes == ax && |r.steps| == 3
    ensures values.Ok? ==>
      var limited := SetAxis(ax, values.value);
      match setTicks(limited, values.value)
      case Ok(ticked) => r.failure.None? && r.axes == ticked.(xlabel := xlabel, ylabel := ylabel)
      case Err(e) => r.failure == Some(e) && r.axes == limited && |r.steps| == 5
  {
    var started := [BaseSpines, VariantSpines, ComputeAxisValues];
    match values
    case Err(e) => Rendering(started, ax, Some(e))
    case Ok(v) =>
      var limited := SetAxis(ax, v);
      match setTicks(limited, v)
      case Err(e) => Rendering(started + [ApplyAxis(v), ApplyTicks(v)], limited, Some(e))
      case Ok(ticked) =>
        Rendering(
          started + [ApplyAxis(v), ApplyTicks(v), ApplyLabels(xlabel, ylabel)],
          ticked.(xlabel := xlabel, ylabel := ylabel),
          None)
  }

  /** What a chart's plot receives for one coordinate: a literal sequence or
      the name of a column. */
  datatype Spec<T> = Literal(values: seq<T>) | Column(name: string)

  /** Plot.fit: look the argument up in the table; only a TypeError (no
      table) falls back to using the argument as the sequence itself. */
  function Fit<T>(spec: Spec<T>, data: Option<map<string, seq<T>>>): (r: Result<seq<T>>)
    ensures data.None? && spec.Literal? ==> r == Ok(spec.values)
    ensures data.None? && spec.Column? ==> r == Err(NameWithoutTable(spec.name))
    ensures data.Some? && spec.Column? ==>
      (r.Ok? <==> spec.name in data.value)
      && (r.Ok? ==> r.value == data.value[spec.name])
      && (r.Err? ==> r.error == MissingColumn(spec.name))
    ensures data.Some? && spec.Literal? ==> r == Err(NotAColumnKey)
  {
    match data
    case None =>
      (match spec
       case Literal(values) => Ok(values)
       case Column(name) => Err(NameWithoutTable(name)))
    case Some(table) =>
      (match spec
       case Column(name) => if name in table then Ok(table[name]) else Err(MissingColumn(name))
       case Literal(_) => Err(NotAColumnKey))
  }

  /** With a table, a successful fit always comes from the named column:
      there is no fallback to a literal. */
  lemma FitWithTableIsLookup<T>(spec: Spec<T>, table: map<string, seq<T>>)
    ensures Fit(spec, Some(table)).Ok? <==> spec.Column? && spec.name in table
    ensures Fit(spec, Some(table)).Ok? ==> Fit(spec, Some(table)).value == table[spec.name]
  {
  }

  /** Python's truthiness of an optional title: None and "" are false. */
  predicate Falsy(title: Option<string>) {
    title.None? || title.value == ""
  }

  /** `title or f"{kind} plot of {xlabel} and {ylabel}"` from the charts'
      set_plot_title. */
  function PlotTitle(kind: string, title: Option<string>, xlabel: string, ylabel: string): (r: string)
    ensures |r| > 0
    ensures !Falsy(title) ==> r == title.value
    ensures Falsy(title) ==> r == kind + " plot of " + xlabel + " and " + ylabel
  {
    if Falsy(title) then kind + " plot of " + xlabel + " and " + ylabel else title.value
  }

  /** Feeding a chart's title back in as the title leaves it unchanged. */
  lemma PlotTitleIdempotent(kind: string, title: Option<string>, xlabel: string, ylabel: string)
    ensures var t := PlotTitle(kind, title, xlabel, ylabel);
      PlotTitle(kind, Some(t), xlabel, ylabel) == t
  {
  }

  /** A chart's set_plot_title followed by the base class's: only the axes
      title changes, to the given truthy title or the default naming the
      chart kind and both axis labels. */
  function SetPlotTitle(kind: string, ax: Axes, title: Option<string>, xlabel: string, ylabel: string): (r: Axes)
    ensures r == ax.(title := r.title)
    ensures |r.title| > 0
    ensures !Falsy(title) ==> r.title == title.value
    ensures Falsy(title) ==> r.title == kind + " plot of " + xlabel + " and " + ylabel
  {
    ax.(title := PlotTitle(kind, title, xlabel, ylabel))
  }
}

=== FILE: outcomes.dfy ===
/** Failure-carrying return values used in place of the exceptions the
    plotting library raises. */
module Outcomes {

  datatype Option<+T> = None | Some(value: T)

  /** Why a modelled operation produced no usable value: one constructor per
      exception the code raises, plus NameWithoutTable, where the code returns
      a 0-d string array that no later step can use. */
  datatype Error =
    | EmptySample                // numpy min/max/percentile of a zero-length array (ValueError), or
                                 // the first-element type test of fit_axis_values on an empty series
    | BadAlign(align: string)    // Bar.set_ticks: align is neither "center" nor "edge" (ValueError)
    | MissingColumn(name: string) // data[name] on a table without that column (KeyError)
    | NotAColumnKey              // a literal sequence used to index a table (KeyError)
    | NameWithoutTable(name: string) // a column name given but no table to look it up in
    | MissingArgument(name: string)  // a required keyword argument absent from the axis-values dict (TypeError)
    | NoTickLabels               // indexing the first tick label of an empty list (IndexError)

  datatype Result<+T> = Ok(value: T) | Err(error: Error)
}

=== FILE: stats.dfy ===
/** Order statistics over samples of reals: minimum, maximum, sorting, and
    numpy's default ("linear") percentile and median. Python floats are
    modelled as exact reals. */
module Stats {

  ghost predicate Sorted(s: seq<real>) {
    forall i, j | 0 <= i <= j < |s| :: s[i] <= s[j]
  }

  /** m is an element of s and no element of s is smaller. */
  ghost predicate IsMin(m: real, s: seq<real>) {
    m in s && forall x | x in s :: m <= x
  }

  /** m is an element of s and no element of s is larger. */
  ghost predicate IsMax(m: real, s: seq<real>) {
    m in s && forall x | x in s :: x <= m
  }

  /** A sample has one minimum and one maximum. */
  lemma ExtremesUnique(s: seq<real>, a: real, b: real)
    ensures IsMin(a, s) && IsMin(b, s) ==> a == b
    ensures IsMax(a, s) && IsMax(b, s) ==> a == b
  {
  }

  /** np.min */
  function Min(s: seq<real>): (m: real)
    requires |s| > 0
    ensures IsMin(m, s)
  {
    if |s| == 1 then s[0]
    else
      var rest := Min(s[1..]);
      assert s == [s[0]] + s[1..];
      if s[0] <= rest then s[0] else rest
  }

  /** np.max */
  function Max(s: seq<real>): (m: real)
    requires |s| > 0
    ensures IsMax(m, s)
  {
    if |s| == 1 then s[0]
    else
      var rest := Max(s[1..]);
      assert s == [s[0]] + s[1..];
      if s[0] >= rest then s[0] else rest
  }

  /** Inserts x into a sorted sequence, keeping it sorted. */
  function Insert(x: real, s: seq<real>): (r: seq<real>)
    requires Sorted(s)
    ensures Sorted(r)
    ensures multiset(r) == multiset(s) + multiset{x}
    ensures |r| == |s| + 1
    ensures r[0] == x || (|s| > 0 && r[0] == s[0])
  {
    if |s| == 0 then [x]
    else if x <= s[0] then [x] + s
    else
      var tail := Insert(x, s[1..]);
      assert s == [s[0]] + s[1..];
      SortedCons(s[0], tail);
      [s[0]] + tail
  }

  /** Prepending a value no larger than the head keeps a sequence sorted. */
  lemma SortedCons(h: real, t: seq<real>)
    requires Sorted(t)
    requires |t| > 0 ==> h <= t[0]
    ensures Sorted([h] + t)
  {
    var u := [h] + t;
    forall i, j | 0 <= i <= j < |u|
      ensures u[i] <= u[j]
    {
      if i == 0 && j > 0 {
        assert t[0] <= t[j - 1];
      }
    }
  }

  /** The sorted permutation of a sample (what np.percentile sorts into). */
  function Sort(s: seq<real>): (r: seq<real>)
    ensures Sorted(r)
    ensures multiset(r) == multiset(s)
    ensures |r| == |s|
  {
    if |s| == 0 then []
    else
      assert s == [s[0]] + s[1..];
      Insert(s[0], Sort(s[1..]))
  }

  /** The head of a sorted sequence is its least element. */
  lemma SortedHead(a: seq<real>, x: real)
    requires Sorted(a)
    requires x in multiset(a)
    ensures a[0] <= x
  {
    var i :| 0 <= i < |a| && a[i] == x;
  }

  /** The tail of a sorted sequence is sorted and holds the remaining
      values. */
  lemma SortedTail(a: seq<real>)
    requires Sorted(a) && |a| > 0
    ensures Sorted(a[1..])
    ensures multiset(a[1..]) == multiset(a) - multiset{a[0]}
  {
    assert a == [a[0]] + a[1..];
  }

  /** There is only one sorted arrangement of a multiset of values, so Sort
      is characterised by its contract. */
  lemma {:induction false} SortedUnique(a: seq<real>, b: seq<real>)
    requires Sorted(a) && Sorted(b)
    requires multiset(a) == multiset(b)
    ensures a == b
  {
    assert |a| == |multiset(a)| == |multiset(b)| == |b|;
    if |a| > 0 {
      assert a[0] in multiset(a) && b[0] in multiset(b);
      SortedHead(a, b[0]);
      SortedHead(b, a[0]);
      assert a[0] == b[0];
      SortedTail(a);
      SortedTail(b);
      SortedUnique(a[1..], b[1..]);
      assert a == [a[0]] + a[1..];
      assert b == [b[0]] + b[1..];
    }
  }

  /** Sort returns the one sorted permutation of its input. */
  lemma SortIsTheSortedPermutation(s: seq<real>, t: seq<real>)
    requires Sorted(t)
    requires multiset(s) == multiset(t)
    ensures Sort(s) == t
  {
    SortedUnique(Sort(s), t);
  }

  /** Every element of the sorted sample comes from the sample, and back. */
  lemma SortSameElements(s: seq<real>)
    ensures forall x :: x in Sort(s) <==> x in s
  {
    var t := Sort(s);
    forall x
      ensures x in t <==> x in s
    {
      assert x in t <==> x in multiset(t);
      assert x in s <==> x in multiset(s);
    }
  }

  /** The first element of the sorted sample is its minimum and the last its
      maximum. */
  lemma SortEnds(s: seq<real>)
    requires |s| > 0
    ensures Sort(s)[0] == Min(s)
    ensures Sort(s)[|s| - 1] == Max(s)
  {
    var t := Sort(s);
    SortSameElements(s);
    var lo := Min(s);
    assert lo in t;
    var i :| 0 <= i < |t| && t[i] == lo;
    assert t[0] <= t[i];
    assert t[0] in s;
    var hi := Max(s);
    assert hi in t;
    var j :| 0 <= j < |t| && t[j] == hi;
    assert t[j] <= t[|s| - 1];
    assert t[|s| - 1] in s;
  }

  /** Linear interpolation between the sorted neighbours of a fractional
      rank: numpy's `_lerp(s[k], s[k+1], rank - k)` with k = floor(rank) and
      the upper neighbour clipped to the last index. */
  function InterpolateAt(s: seq<real>, rank: real): real
    requires 0.0 <= rank <= (|s| - 1) as real
  {
    var k := rank.Floor;
    var g := rank - k as real;
    if k + 1 < |s| then s[k] + (s[k + 1] - s[k]) * g else s[k]
  }

  /** Where rank p of 100 falls on n sorted values: p·(n−1)/100. */
  function Rank(n: nat, p: real): (r: real)
    requires n > 0
    requires 0.0 <= p <= 100.0
    ensures 0.0 <= r <= (n - 1) as real
  {
    var fraction := p / 100.0;
    var last := (n - 1) as real;
    ScaleWithin(fraction, last);
    fraction * last
  }

  /** np.percentile(sample, p) with the default "linear" method; every
      percentile lies between the sample's minimum and maximum. */
  function Percentile(sample: seq<real>, p: real): (r: real)
    requires |sample| > 0
    requires 0.0 <= p <= 100.0
    ensures Min(sample) <= r <= Max(sample)
  {
    var t := Sort(sample);
    var rank := Rank(|sample|, p);
    SortEnds(sample);
    InterpolateBetween(t, rank);
    InterpolateAt(t, rank)
  }

  /** np.median: the middle sorted value, or the mean of the two middle ones
      when the sample has even length; it lies between the sample's minimum
      and maximum. */
  function Median(sample: seq<real>): (r: real)
    requires |sample| > 0
    ensures Min(sample) <= r <= Max(sample)
  {
    var t := Sort(sample);
    var n := |sample|;
    SortEnds(sample);
    assert t[0] <= t[n / 2] <= t[n - 1];
    if n % 2 == 1 then t[n / 2]
    else
      assert t[0] <= t[n / 2 - 1] <= t[n - 1];
      (t[n / 2 - 1] + t[n / 2]) / 2.0
  }

  /** A fraction of a non-negative quantity stays between zero and it. */
  lemma ScaleWithin(g: real, d: real)
    requires 0.0 <= g <= 1.0
    requires 0.0 <= d
    ensures 0.0 <= g * d <= d
  {
    assert d - g * d == (1.0 - g) * d;
  }

  /** Scaling by a non-negative factor preserves order. */
  lemma ScaleMonotone(d: real, a: real, b: real)
    requires 0.0 <= d
    requires a <= b
    ensures a * d <= b * d
  {
    assert b * d - a * d == (b - a) * d;
  }

  /** An interpolated value lies between the two sorted values it
      interpolates, hence between the sample's extremes. */
  lemma InterpolateBetween(s: seq<real>, rank: real)
    requires Sorted(s)
    requires 0.0 <= rank <= (|s| - 1) as real
    ensures s[rank.Floor] <= InterpolateAt(s, rank)
    ensures rank.Floor + 1 < |s| ==> InterpolateAt(s, rank) <= s[rank.Floor + 1]
    ensures s[0] <= InterpolateAt(s, rank) <= s[|s| - 1]
  {
    var k := rank.Floor;
    var g := rank - k as real;
    if k + 1 < |s| {
      var d := s[k + 1] - s[k];
      ScaleWithin(g, d);
      assert InterpolateAt(s, rank) == s[k] + g * d;
      assert s[k + 1] <= s[|s| - 1];
    }
    assert s[0] <= s[k];
    assert s[k] <= s[|s| - 1];
  }

  /** Inside one cell between sorted neighbours, the interpolation is
      s[k] plus the fraction of the gap to s[k+1]. */
  lemma InterpolateInCell(s: seq<real>, rank: real, k: int)
    requires 0.0 <= rank <= (|s| - 1) as real
    requires rank.Floor == k
    requires k + 1 < |s|
    ensures InterpolateAt(s, rank) == s[k] + (rank - k as real) * (s[k + 1] - s[k])
  {
  }

  /** At a whole-number rank the interpolation is the sorted value there. */
  lemma InterpolateAtIndex(s: seq<real>, k: nat)
    requires k < |s|
    ensures InterpolateAt(s, k as real) == s[k]
  {
    assert (k as real).Floor == k;
    if k + 1 < |s| {
      assert (k as real - k as real) * (s[k + 1] - s[k]) == 0.0;
    }
  }

  /** Within one cell the interpolation grows with the rank. */
  lemma InterpolateMonotoneInCell(s: seq<real>, r1: real, r2: real, k: int)
    requires Sorted(s)
    requires 0.0 <= r1 <= r2 <= (|s| - 1) as real
    requires r1.Floor == k && r2.Floor == k
    requires k + 1 < |s|
    ensures InterpolateAt(s, r1) <= InterpolateAt(s, r2)
  {
    var d := s[k + 1] - s[k];
    assert d >= 0.0;
    InterpolateInCell(s, r1, k);
    InterpolateInCell(s, r2, k);
    var g1 := r1 - k as real;
    var g2 := r2 - k as real;
    ScaleMonotone(d, g1, g2);
    assert InterpolateAt(s, r1) == s[k] + g1 * d;
    assert InterpolateAt(s, r2) == s[k] + g2 * d;
    assert s[k] + g1 * d <= s[k] + g2 * d;
  }

  /** The interpolated percentile is monotone in its rank. */
  lemma InterpolateMonotone(s: seq<real>, r1: real, r2: real)
    requires Sorted(s)
    requires 0.0 <= r1 <= r2 <= (|s| - 1) as real
    ensures InterpolateAt(s, r1) <= InterpolateAt(s, r2)
  {
    var k1 := r1.Floor;
    var k2 := r2.Floor;
    if k1 == k2 {
      if k1 + 1 < |s| {
        InterpolateMonotoneInCell(s, r1, r2, k1);
      }
    } else {
      InterpolateBetween(s, r1);
      InterpolateBetween(s, r2);
      assert k1 + 1 <= k2;
      assert s[k1 + 1] <= s[k2];
    }
  }

  /** The rank grows with the percentile. */
  lemma RankMonotone(n: nat, p1: real, p2: real)
    requires n > 0
    requires 0.0 <= p1 <= p2 <= 100.0
    ensures Rank(n, p1) <= Rank(n, p2)
  {
    ScaleMonotone((n - 1) as real, p1 / 100.0, p2 / 100.0);
    assert Rank(n, p1) == p1 / 100.0 * (n - 1) as real;
    assert Rank(n, p2) == p2 / 100.0 * (n - 1) as real;
  }

  /** np.percentile is monotone in p: a higher percentile is never smaller. */
  lemma PercentileMonotone(sample: seq<real>, p1: real, p2: real)
    requires |sample| > 0
    requires 0.0 <= p1 <= p2 <= 100.0
    ensures Percentile(sample, p1) <= Percentile(sample, p2)
  {
    var n := |sample|;
    RankMonotone(n, p1, p2);
    InterpolateMonotone(Sort(sample), Rank(n, p1), Rank(n, p2));
  }

  /** The median rank of an odd-length sample is the integer n / 2. */
  lemma MedianRankOdd(n: nat)
    requires n % 2 == 1
    ensures Rank(n, 50.0) == (n / 2) as real
    ensures Rank(n, 50.0).Floor == n / 2
  {
    assert n - 1 == 2 * (n / 2);
  }

  /** The median rank of an even-length sample lies half-way between
      n / 2 - 1 and n / 2. */
  lemma MedianRankEven(n: nat)
    requires n > 0 && n % 2 == 0
    ensures Rank(n, 50.0) == (n / 2 - 1) as real + 0.5
    ensures Rank(n, 50.0).Floor == n / 2 - 1
  {
    assert n - 1 == 2 * (n / 2 - 1) + 1;
  }

  /** For an odd count the median rank hits the middle value exactly. */
  lemma MiddleOdd(t: seq<real>)
    requires |t| % 2 == 1
    ensures InterpolateAt(t, Rank(|t|, 50.0)) == t[|t| / 2]
  {
    MedianRankOdd(|t|);
    InterpolateAtIndex(t, |t| / 2);
  }

  /** For an even count the median rank falls half-way between the two
      middle values, so interpolation averages them. */
  lemma MiddleEven(t: seq<real>)
    requires |t| > 0 && |t| % 2 == 0
    ensures InterpolateAt(t, Rank(|t|, 50.0)) == (t[|t| / 2 - 1] + t[|t| / 2]) / 2.0
  {
    var k := |t| / 2 - 1;
    var rank := Rank(|t|, 50.0);
    MedianRankEven(|t|);
    InterpolateInCell(t, rank, k);
    assert rank - k as real == 0.5;
  }

  /** np.median coincides with the 50th linear percentile. */
  lemma MedianIsPercentile50(sample: seq<real>)
    requires |sample| > 0
    ensures Median(sample) == Percentile(sample, 50.0)
  {
    var t := Sort(sample);
    if |t| % 2 == 1 {
      MiddleOdd(t);
    } else {
      MiddleEven(t);
    }
  }

  /** When every sample value equals c, so does every percentile. */
  lemma PercentileOfConstant(sample: seq<real>, c: real, p: real)
    requires |sample| > 0
    requires forall i | 0 <= i < |sample| :: sample[i] == c
    requires 0.0 <= p <= 100.0
    ensures Percentile(sample, p) == c
  {
    var t := Sort(sample);
    SortSameElements(sample);
    forall i | 0 <= i < |t|
      ensures t[i] == c
    {
      assert t[i] in sample;
    }
    var rank := Rank(|sample|, p);
    var k := rank.Floor;
    if k + 1 < |t| {
      assert t[k + 1] - t[k] == 0.0;
    }
  }
}
